=== FILE: README.md ===
# magic_mapper resolver engine, modelled in Dafny

`magic_map(schema, data, variables)` takes a nested template of dicts and lists
whose leaves are resolvers, and maps it over source data made of dicts, lists
and scalars. The result has the template's shape. Each leaf is a chain of links
built with `>>`. Each link transforms the previous link's output. There are four
link kinds:

- `Value` looks up a key.
- `List` looks up a key, then casts, validates the length, reduces, filters and indexes.
- `Variable` delegates to a named link in the variable table.
- `Schema` applies a nested template, once per element when the input is a list, with local variables layered over the outer table.

A `StopChain(None)` raised by `Value` or `List` on a `None` ends the chain early,
and that `None` becomes the chain's value.

The model is pure and functional:

- `source_data.dfy` (`SourceData`) holds the data, the error kinds, the outcome types (`Step` for one link, `Result` for a chain or a template), and the Python operations the links use: `dict.get`, `len`, iteration and indexing.
- `list_pipeline.dfy` (`ListPipeline`) is the `List` link, stage by stage.
- `magic_mapper.dfy` (`MagicMapper`) holds the link and template datatypes, `>>`, link and chain resolution, and `magic_map`.
- `chain_properties.dfy` (`ChainProperties`) states what composition, chains, the link kinds and `magic_map` promise.
- `fuel_bound.dfy` (`FuelBound`) shows that the fuel bound on `Variable` indirection only ever cuts a resolution short.
- `examples.dfy` (`Examples`) restates the repository's test scenarios as lemmas.

The source has no guard against a `Variable` that refers to itself, directly
or through other entries. Such a table recurses until Python's recursion limit
is hit. The model gives every resolution a `fuel` count instead. Each
`Variable` indirection uses one unit, and running out is the error `OutOfFuel`.
No cycle check is added. `FuelBound.MagicMapFuel` proves that more fuel never
changes an outcome other than `OutOfFuel`. `FuelBound.SelfReferenceNeverResolves`
proves that a self-referencing entry never produces a value, whatever the fuel.

Three behaviours of the code are easy to misread. The model follows the code:

- The length checks run after the cast, so they see the one-element list (`ListPipeline.CastBeforeLengthChecks`).
- The `min_length` error carries only the key. The `max_length` error carries the key and the length.
- A `List` with no default does not raise `KeyError` when the key is missing. The `empty` sentinel goes into the pipeline, and when nothing else is configured it is the result, or the single element of a list under `cast` (`ListPipeline.MissingKeyYieldsSentinel`). A length bound, a reduce, a filter or an index on the bare sentinel raises `TypeError` instead, and `cast` with `min_length` of 2 or more fails validation. This is why `Data` has a `DEmpty` case. A later `Value` lookup that finds that sentinel raises `KeyError`, as `v == empty` does in the source.

## Model

| member | source | states |
|---|---|---|
| SourceData.Lookup | src/magicmapper/magicmapper.py:86 | `get` succeeds exactly on mappings. A present key gives its value. An absent key gives the configured default, or the `empty` sentinel when none is set. Any non-mapping is an `AttributeError`. |
| SourceData.Length | src/magicmapper/magicmapper.py:91-96 | `len` is defined exactly for lists, strings and mappings, and is their element, character or key count. |
| SourceData.Iterate | src/magicmapper/magicmapper.py:98-103 | Reduce and filter iterate a list's elements, or a string's one-character strings, in order. Mapping iteration is reported separately. Every other value is a `TypeError`. |
| SourceData.PyIndex | src/magicmapper/magicmapper.py:105-106 | An index succeeds exactly when it lies in `-len .. len-1`. A negative index counts from the end. |
| SourceData.Subscript | src/magicmapper/magicmapper.py:105-106 | Indexing a list picks the Python-indexed element, and indexing a string gives that one-character string. An out-of-range index on a list or string is an `IndexError`. A string-keyed mapping gives `KeyError`. Other values are not subscriptable. |
| ListPipeline.Cast | src/magicmapper/magicmapper.py:89-90 | With `cast`, the result is always a list: a list is kept as it is, and a non-list becomes a one-element list of itself. Without `cast`, nothing changes. |
| ListPipeline.Validate | src/magicmapper/magicmapper.py:91-96 | The value passes unchanged exactly when it is within both configured bounds. `max_length` is checked first and reports the key and the length. `min_length` reports the key. A bound on a value with no length is a `TypeError`. |
| ListPipeline.FoldLeft | src/magicmapper/magicmapper.py:98-100 | Reducing an empty list gives the factory's value. A one-element list gives the combiner applied to that value and the element. |
| ListPipeline.FoldLeftSnoc | src/magicmapper/magicmapper.py:98-100 | The reduce is a left fold: the last element is combined into the fold of the elements before it. |
| ListPipeline.FoldLeftAppend | src/magicmapper/magicmapper.py:98-100 | Reducing a concatenation continues from the first part's result. |
| ListPipeline.Filter | src/magicmapper/magicmapper.py:102-103 | The filter keeps exactly the elements that satisfy the predicate, and never adds any. |
| ListPipeline.FilterAppend | src/magicmapper/magicmapper.py:102-103 | Filtering distributes over concatenation, so kept elements stay in their original order. |
| ListPipeline.FilterKeepsAll | src/magicmapper/magicmapper.py:102-103 | When every element satisfies the predicate, the filter returns the list unchanged. |
| ListPipeline.FilterIdempotent | src/magicmapper/magicmapper.py:102-103 | Filtering the filter's output again changes nothing. |
| ListPipeline.Reduce | src/magicmapper/magicmapper.py:98-100 | On a list, the result is the left fold from the factory's value. It fails exactly when the value cannot be iterated. |
| ListPipeline.FilterData | src/magicmapper/magicmapper.py:102-103 | The filter's output is always a list. It fails exactly when its input cannot be iterated. |
| ListPipeline.ResolveList | src/magicmapper/magicmapper.py:85-108 | A fetched `None` stops the chain with `None`, before any cast or check. This is the only way `List` stops a chain. Data that is not a mapping fails with `AttributeError`. When the cast value fails a length check, that error is the result, whatever reduce, filter or index are configured. |
| ListPipeline.BaseStage | src/magicmapper/magicmapper.py:86-108 | With no reduce, filter or index set, a fetched value (or default) that is not `None` and passes the length checks is returned as cast: unchanged, or wrapped in a one-element list under `cast` when it is not a list. |
| ListPipeline.CastBeforeLengthChecks | src/magicmapper/magicmapper.py:89-96 | With `cast` and `max_length=1`, a single non-list value passes validation and comes back wrapped. The cast runs before the length checks. |
| ListPipeline.LengthChecksOnLists | src/magicmapper/magicmapper.py:91-96 | A fetched list longer than `max_length` fails with its length. One within `max_length` (or with no `max_length` set) but shorter than `min_length` fails naming the key. One within both bounds is returned unchanged. |
| ListPipeline.ReduceThenFilterThenIndex | src/magicmapper/magicmapper.py:98-108 | With reduce, filter and index all set, when the cast value is a list that passes validation and the fold yields a list: the reduce folds over that cast value, the filter sees the reduce's output, and the index picks from what the filter kept. An out-of-range index is an `IndexError`. |
| ListPipeline.ValidationFirst | src/magicmapper/magicmapper.py:91-106 | A list longer than `max_length` fails with `TooLong` even when the configured index is out of range: validation comes before indexing. |
| ListPipeline.MissingKeyYieldsSentinel | src/magicmapper/magicmapper.py:83-108 | With no length bound, reduce, filter or index configured, a missing key with no default raises nothing. The result is the `empty` sentinel, or `[empty]` under `cast`. |
| MagicMapper.LinksOf | src/magicmapper/magicmapper.py:31-32 | An operand of `>>` contributes its own chain's links, or itself alone when it is a bare link. |
| MagicMapper.Compose | src/magicmapper/magicmapper.py:30-33 | `a >> b` is always a `Chain`. Its links are all of a's links, in order, followed by all of b's links. |
| MagicMapper.ToChain | src/magicmapper/magicmapper.py:22-23 | `to_chain` gives a `Chain` with the same links a bare link contributes to `>>`. |
| MagicMapper.ResolveValue | src/magicmapper/magicmapper.py:63-69 | A present non-`None` key gives its value. An absent key with a default gives the default. A resolved `None` stops the chain. An absent key whose default is unset or is the `empty` sentinel, or a stored `empty` sentinel, is a `KeyError` carrying the key and the mapping. A value returned never is `None` or the sentinel. |
| MagicMapper.Finish | src/magicmapper/magicmapper.py:45-46 | The final value of a `StopChain` becomes the chain's result. Other errors pass through unchanged. |
| MagicMapper.ResolveLink | src/magicmapper/magicmapper.py:115-134 | A link can stop a chain only with `None`. A `Schema` link never stops one. A `Variable` whose name is not in the table raises `KeyError` for that name. |
| MagicMapper.RunLinks | src/magicmapper/magicmapper.py:40-53 | An empty chain hands its input through. A stop or an error at the first link ends the run with that outcome. A run that stops does so only with `None`. |
| MagicMapper.ResolveChain | src/magicmapper/magicmapper.py:40-53 | An empty chain returns its input unchanged. A `StopChain` at the first link makes `None` the result. An error there is re-raised unchanged. A one-link chain gives that link's outcome. |
| MagicMapper.MagicMap | src/magicmapper/magicmapper.py:137-150 | A dict template yields a mapping with exactly the template's keys. A list template yields a list of the same length. Any other leaf is a `ValueError` naming its type. |
| MagicMapper.MapEntries | src/magicmapper/magicmapper.py:141-142 | The mapped dict has exactly the template's key set. |
| MagicMapper.MapList | src/magicmapper/magicmapper.py:143-144 | The mapped list has the template list's length. |
| MagicMapper.Broadcast | src/magicmapper/magicmapper.py:132-133 | `Schema` on a list yields a list of the input's length. |
| MagicMapper.Map | src/magicmapper/magicmapper.py:137-139 | A missing variable table behaves exactly like an empty one. A given table is used as it is. |
| ChainProperties.RunLinksAppend | src/magicmapper/magicmapper.py:40-53 | Resolving a concatenation resolves the first part, then feeds its output to the second part. A stop or an error in the first part skips the second part. |
| ChainProperties.AppendedLinkSeesPreviousOutput | src/magicmapper/magicmapper.py:42-44 | Link i+1 receives link i's output. |
| ChainProperties.ComposeResolvesInSequence | src/magicmapper/magicmapper.py:30-53 | `a >> b` resolves as `a`, then `b` on a's output. A stop inside `a` gives its value, and an error inside `a` is re-raised unchanged. |
| ChainProperties.ComposeAssociative | src/magicmapper/magicmapper.py:30-33 | `(a >> b) >> c` and `a >> (b >> c)` build the same chain. |
| ChainProperties.ComposeIsIndependent | src/magicmapper/magicmapper.py:30-33 | `a >> b` and `a >> c` agree on everything `a` decides. A stop or an error in `a` is the outcome of both. Otherwise each continues from the same output of `a` into its own tail. |
| ChainProperties.StopSkipsRest | src/magicmapper/magicmapper.py:45-46 | If some prefix of the chain raises `StopChain`, that `None` is the chain's result, whatever links follow. |
| ChainProperties.ErrorPropagates | src/magicmapper/magicmapper.py:48-52 | An error raised in some prefix of the chain is the chain's error, unchanged, whatever links follow. |
| ChainProperties.ValueNoneShortCircuits | src/magicmapper/magicmapper.py:63-66 | `Value(k) >> X` on a mapping whose `k` is `None` yields `None`, for every `X`. |
| ChainProperties.BareLinkIsOneLinkChain | src/magicmapper/magicmapper.py:147-148 | A bare link in a template gives the same result as its one-link chain. |
| ChainProperties.VariableDelegates | src/magicmapper/magicmapper.py:115-116 | `Variable(n)` returns exactly what the table's entry for `n` returns on the same data and table. A missing name is a `KeyError`. |
| ChainProperties.SchemaVariablesOverride | src/magicmapper/magicmapper.py:124-130 | On data that is not a list, for a `Schema` whose template is a single `Variable` leaf: inside the `Schema`, a variable resolves to the local entry when there is one. Otherwise it resolves to the outer entry. In both cases it runs under the merged table. |
| ChainProperties.SchemaBroadcast | src/magicmapper/magicmapper.py:124-133 | A `Schema` link on list input maps its template over each element in order, under the outer table with the local variables laid over it. It succeeds with the list of results exactly when every element succeeds, and otherwise fails with the first failing element's error. It never stops the chain. |
| ChainProperties.IndexStage | src/magicmapper/magicmapper.py:105-108 | Setting `index` indexes what the `List` would otherwise return, Python-style, and changes nothing else. A stop or an error before it is unchanged. Without an index the whole value is returned. |
| ChainProperties.FilterStage | src/magicmapper/magicmapper.py:102-103 | With no index, setting `filter` filters what the `List` would otherwise return into a list. A stop or an error before it is unchanged. |
| ChainProperties.ReduceStage | src/magicmapper/magicmapper.py:98-100 | With no filter or index, setting `reduce` folds the validated cast value that the `List` would otherwise return. A stop or an error before it is unchanged. |
| ChainProperties.BroadcastElementwise | src/magicmapper/magicmapper.py:132-133 | `Schema` on a list succeeds exactly when every element maps successfully. The i-th output is the template mapped over the i-th element. On failure, the error is the first failing element's error. |
| ChainProperties.MapListElementwise | src/magicmapper/magicmapper.py:143-144 | A list template succeeds exactly when every element succeeds. The i-th output is the i-th element's result. On failure, the error is the first failing element's error. |
| ChainProperties.MapEntriesPerKey | src/magicmapper/magicmapper.py:141-142 | A dict template succeeds exactly when every entry succeeds. Each key maps to its own template's result. On failure, the error is the first failing entry's error. |
| FuelBound.ResolveLinkFuel | src/magicmapper/magicmapper.py:115-116 | A link outcome other than `OutOfFuel` is the same with any larger fuel. |
| FuelBound.RunLinksFuel | src/magicmapper/magicmapper.py:40-53 | A chain outcome other than `OutOfFuel` is the same with any larger fuel. |
| FuelBound.MagicMapFuel | src/magicmapper/magicmapper.py:137-150 | A `magic_map` outcome other than `OutOfFuel` is the same with any larger fuel. |
| FuelBound.MapEntriesFuel | src/magicmapper/magicmapper.py:141-142 | A dict-template outcome other than `OutOfFuel` is the same with any larger fuel. |
| FuelBound.MapListFuel | src/magicmapper/magicmapper.py:143-144 | A list-template outcome other than `OutOfFuel` is the same with any larger fuel. |
| FuelBound.BroadcastFuel | src/magicmapper/magicmapper.py:132-133 | A broadcast outcome other than `OutOfFuel` is the same with any larger fuel. |
| FuelBound.SelfReferenceNeverResolves | src/magicmapper/magicmapper.py:115-116 | A table entry that names itself never yields a value, however much fuel is given. |
| Examples.NestedSchemaOverList | src/magicmapper/tests/test_magic.py:7-14 | A `Schema` whose leaf is `Value("person") >> Value("name")` maps a list of two records to their two names, in order. |
| Examples.VariableListSchemaChain | src/magicmapper/tests/test_magic.py:16-28 | `Variable("testvar") >> List("bar", min_length=1) >> Schema(...)` with `testvar = Value("foo")` yields both names. |
| Examples.CastThenSchema | src/magicmapper/tests/test_magic.py:30-41 | With `cast`, a single device record and a list of two give a one-element and a two-element list. |
| Examples.ReduceCollectsValues | src/magicmapper/tests/test_magic.py:43-58 | The devices reduce with a `[]` starting value yields `[1, 2]`. |
| Examples.MinLengthTwo | src/magicmapper/magicmapper.py:95-96 | `List("xs", min_length=2)` fails on one element and returns two elements unchanged. |

## Left out

- The diagnostic `print` of the failing chain prefix (src/magicmapper/magicmapper.py:49-51) is console output. Only the unchanged re-raise of the original error is modelled.
- `src/magic.py` is not part of this model. It is an older copy of the engine whose `>>` mutates its left operand. It is not the engine the tests import.
- Error messages are modelled as structured fields of the error kinds, not as formatted text.
- Callables supplied by the caller are total, pure Dafny functions: the `reduce` combiner, the `default_factory` (modelled as the value it returns) and the `filter` predicate. An exception they raise is not modelled.
- Reduce or filter over a mapping gives the `UnorderedIteration` error rather than iterating its keys, because the model's mappings keep no key order. Output mappings are compared by key set and values only.
- Data has no floats, tuples, sets or non-string mapping keys. Python `bool`'s behaviour as an integer is not modelled.
- Python's recursion limit is replaced by the `fuel` bound on `Variable` indirection (see above). Deep templates or data consume no fuel.
- A variable-table entry that is a `Chain`, or a `>>` operand that is not a link, cannot be written in the model's types. The source would raise `AttributeError` at resolution.
- Dataclass `repr`, and the test harness itself.
- ChainProperties.MapEntriesPerKey: assumes the dict template's keys are distinct, as a Python dict's keys are. For a list of entries with a repeated key, the model lets the later entry win but states nothing about it.

=== FILE: chain_properties.dfy ===
/** What composition, chain resolution, the link kinds and `magic_map`
    promise, stated over the resolver engine. */
module ChainProperties {
  import opened SourceData
  import opened ListPipeline
  import opened MagicMapper

  /** Continue a run with more links only when the first part completed. */
  function AndThen(s: Step, ls: seq<Link>, vars: Table, fuel: nat): Step {
    match s
    case Next(v) => RunLinks(ls, v, vars, fuel)
    case _ => s
  }

  /** Running a concatenation runs the first part, then feeds its output to
      the second; a stop or an error in the first part skips the second. */
  lemma {:induction false} RunLinksAppend(l1: seq<Link>, l2: seq<Link>, d: Data, vars: Table, fuel: nat)
    ensures RunLinks(l1 + l2, d, vars, fuel) == AndThen(RunLinks(l1, d, vars, fuel), l2, vars, fuel)
    decreases |l1|
  {
    if l1 == [] {
      assert l1 + l2 == l2;
    } else {
      assert (l1 + l2)[0] == l1[0];
      assert (l1 + l2)[1..] == l1[1..] + l2;
      match ResolveLink(l1[0], d, vars, fuel)
      case Next(v) => RunLinksAppend(l1[1..], l2, v, vars, fuel);
      case Stop(_) =>
      case Fail(_) =>
    }
  }

  /** Link i+1 receives link i's output: appending a link to a chain that ran
      to completion applies that link to the chain's output. */
  lemma AppendedLinkSeesPreviousOutput(ls: seq<Link>, l: Link, d: Data, vars: Table, fuel: nat)
    requires RunLinks(ls, d, vars, fuel).Next?
    ensures RunLinks(ls + [l], d, vars, fuel) == ResolveLink(l, RunLinks(ls, d, vars, fuel).value, vars, fuel)
  {
    RunLinksAppend(ls, [l], d, vars, fuel);
  }

  /** `a >> b` resolves as `a` followed by `b`: b starts from a's output, and
      a `StopChain` or an error inside `a` is the whole chain's outcome. */
  lemma ComposeResolvesInSequence(a: Chainable, b: Chainable, d: Data, vars: Table, fuel: nat)
    ensures ResolveChain(Compose(a, b).links, d, vars, fuel) ==
      match RunLinks(LinksOf(a), d, vars, fuel)
      case Next(v) => ResolveChain(LinksOf(b), v, vars, fuel)
      case Stop(v) => Ok(v)
      case Fail(e) => Err(e)
  {
    RunLinksAppend(LinksOf(a), LinksOf(b), d, vars, fuel);
  }

  /** Composition is associative, already on the links it builds. */
  lemma ComposeAssociative(a: Chainable, b: Chainable, c: Chainable)
    ensures Compose(Compose(a, b), c) == Compose(a, Compose(b, c))
  {
    assert (LinksOf(a) + LinksOf(b)) + LinksOf(c) == LinksOf(a) + (LinksOf(b) + LinksOf(c));
  }

  /** Building `a >> b` and `a >> c` from the same `a` gives two chains that
      share a's links and agree on everything a decides: a stop or an error
      in `a` is the outcome of both, and otherwise each continues from the
      same output of `a` into its own tail. */
  lemma ComposeIsIndependent(a: Chainable, b: Chainable, c: Chainable, d: Data, vars: Table, fuel: nat)
    ensures var ab := Compose(a, b).links; var ac := Compose(a, c).links;
      var ra := RunLinks(LinksOf(a), d, vars, fuel);
      && (!ra.Next? ==> ResolveChain(ab, d, vars, fuel) == ResolveChain(ac, d, vars, fuel) == Finish(ra))
      && (ra.Next? ==>
            && ResolveChain(ab, d, vars, fuel) == ResolveChain(LinksOf(b), ra.value, vars, fuel)
            && ResolveChain(ac, d, vars, fuel) == ResolveChain(LinksOf(c), ra.value, vars, fuel))
  {
    ComposeResolvesInSequence(a, b, d, vars, fuel);
    ComposeResolvesInSequence(a, c, d, vars, fuel);
  }

  /** A `StopChain` at some link is the chain's result; later links never run. */
  lemma StopSkipsRest(l1: seq<Link>, l2: seq<Link>, d: Data, vars: Table, fuel: nat)
    requires RunLinks(l1, d, vars, fuel).Stop?
    ensures ResolveChain(l1 + l2, d, vars, fuel) == Ok(RunLinks(l1, d, vars, fuel).final)
    ensures ResolveChain(l1 + l2, d, vars, fuel) == Ok(DNull)
  {
    RunLinksAppend(l1, l2, d, vars, fuel);
  }

  /** Any other error propagates out of the chain unchanged. */
  lemma ErrorPropagates(l1: seq<Link>, l2: seq<Link>, d: Data, vars: Table, fuel: nat)
    requires RunLinks(l1, d, vars, fuel).Fail?
    ensures ResolveChain(l1 + l2, d, vars, fuel) == Err(RunLinks(l1, d, vars, fuel).error)
  {
    RunLinksAppend(l1, l2, d, vars, fuel);
  }

  /** `Value(k) >> X` on a mapping whose `k` is `None` yields `None`, whatever `X` is. */
  lemma ValueNoneShortCircuits(k: string, default: Option<Data>, m: map<string, Data>, rest: seq<Link>, vars: Table, fuel: nat)
    requires k in m && m[k] == DNull
    ensures ResolveChain([Value(k, default)] + rest, DMap(m), vars, fuel) == Ok(DNull)
  {
    StopSkipsRest([Value(k, default)], rest, DMap(m), vars, fuel);
  }

  /** A bare link in a template behaves as the one-link chain `to_chain` builds. */
  lemma BareLinkIsOneLinkChain(l: Link, d: Data, vars: Table, fuel: nat)
    ensures MagicMap(Leaf(Bare(l)), d, vars, fuel) == MagicMap(Leaf(ToChain(l)), d, vars, fuel)
  {
    assert [l][0] == l && [l][1..] == [];
    var s := ResolveLink(l, d, vars, fuel);
    assert RunLinks([l], d, vars, fuel) == s by {
      match s
      case Next(v) => assert RunLinks([l], d, vars, fuel) == RunLinks([], v, vars, fuel);
      case Stop(_) =>
      case Fail(_) =>
    }
  }

  /** `Variable(n)` returns exactly what the table's entry for `n` returns on
      the same data and table; a name missing from the table is an error. */
  lemma VariableDelegates(n: string, d: Data, vars: Table, fuel: nat)
    ensures n in vars && fuel > 0 ==> ResolveLink(Variable(n), d, vars, fuel) == ResolveLink(vars[n], d, vars, fuel - 1)
    ensures n !in vars ==> ResolveLink(Variable(n), d, vars, fuel) == Fail(MissingVariable(n))
  {
  }

  /** Inside a `Schema`, a local variable overrides the outer table's entry of
      the same name, and outer names it does not override stay visible. */
  lemma SchemaVariablesOverride(n: string, local: Table, outer: Table, d: Data, fuel: nat)
    requires !d.DList?
    requires n in local || n in outer
    ensures var merged := outer + local;
      ResolveLink(Schema(Leaf(Bare(Variable(n))), local), d, outer, fuel + 1) ==
      AsStep(Finish(ResolveLink(if n in local then local[n] else outer[n], d, merged, fuel)))
  {
    var merged := outer + local;
    assert merged[n] == if n in local then local[n] else outer[n];
    assert ResolveLink(Variable(n), d, merged, fuel + 1) == ResolveLink(merged[n], d, merged, fuel);
    assert MagicMap(Leaf(Bare(Variable(n))), d, merged, fuel + 1) == Finish(ResolveLink(Variable(n), d, merged, fuel + 1));
  }

  /** The index stage: setting `index` applies Python indexing to what the
      `List` would otherwise return, and changes nothing else; without an
      index the whole value is returned. */
  lemma IndexStage(spec: ListSpec, d: Data, i: int)
    requires spec.index.None?
    ensures ResolveList(spec.(index := Some(i)), d) ==
      match ResolveList(spec, d)
      case Next(v) => AsStep(Subscript(v, i))
      case s => s
  {
  }

  /** The filter stage: with no index set, setting `filter` applies the
      filter to what the `List` would otherwise return. */
  lemma FilterStage(spec: ListSpec, d: Data, p: Data -> bool)
    requires spec.index.None? && spec.filter.None?
    ensures ResolveList(spec.(filter := Some(p)), d) ==
      match ResolveList(spec, d)
      case Next(v) => AsStep(FilterData(p, v))
      case s => s
  {
  }

  /** The reduce stage: with no filter or index set, setting `reduce` folds
      what the `List` would otherwise return, that is the validated cast value. */
  lemma ReduceStage(spec: ListSpec, d: Data, red: Reducer)
    requires spec.index.None? && spec.filter.None? && spec.reduce.None?
    ensures ResolveList(spec.(reduce := Some(red)), d) ==
      match ResolveList(spec, d)
      case Next(v) => AsStep(Reduce(red, v))
      case s => s
  {
  }

  /** `out` is the element-wise outcome of `outs`: all succeed and `out` lists
      their values in order, or `out` is the error of the first failure. */
  ghost predicate Collects(outs: seq<Result<Data>>, out: Result<seq<Data>>) {
    && (out.Ok? <==> forall i :: 0 <= i < |outs| ==> outs[i].Ok?)
    && (out.Ok? ==> |out.value| == |outs| && forall i :: 0 <= i < |outs| ==> outs[i] == Ok(out.value[i]))
    && (out.Err? ==> exists i :: 0 <= i < |outs| && outs[i] == Err(out.error)
                                 && forall j :: 0 <= j < i ==> outs[j].Ok?)
  }

  /** Consing a success onto a collected outcome, or stopping at a failure. */
  lemma CollectsCons(o: Result<Data>, outs: seq<Result<Data>>, rest: Result<seq<Data>>)
    requires Collects(outs, rest)
    ensures Collects([o] + outs, if o.Err? then Err(o.error) else if rest.Err? then Err(rest.error) else Ok([o.value] + rest.value))
  {
    var all := [o] + outs;
    if o.Ok? && rest.Err? {
      var i :| 0 <= i < |outs| && outs[i] == Err(rest.error) && forall j :: 0 <= j < i ==> outs[j].Ok?;
      assert all[i + 1] == outs[i];
      assert forall j :: 1 <= j < i + 1 ==> all[j] == outs[j - 1];
    } else if o.Ok? {
      assert forall j :: 1 <= j < |all| ==> all[j] == outs[j - 1];
    } else {
      assert all[0] == o;
    }
  }

  /** `Schema` on a list: one output per input element, in order, each the
      inner template mapped over that element; or the first element's error. */
  lemma {:induction false} BroadcastElementwise(t: Template, xs: seq<Data>, vars: Table, fuel: nat)
    ensures Collects(seq(|xs|, i requires 0 <= i < |xs| => MagicMap(t, xs[i], vars, fuel)),
                     Broadcast(t, xs, vars, fuel))
    decreases |xs|
  {
    var outs := seq(|xs|, i requires 0 <= i < |xs| => MagicMap(t, xs[i], vars, fuel));
    if xs != [] {
      BroadcastElementwise(t, xs[1..], vars, fuel);
      var tail := seq(|xs[1..]|, i requires 0 <= i < |xs[1..]| => MagicMap(t, xs[1..][i], vars, fuel));
      assert outs == [MagicMap(t, xs[0], vars, fuel)] + tail;
      CollectsCons(MagicMap(t, xs[0], vars, fuel), tail, Broadcast(t, xs[1..], vars, fuel));
    }
  }

  /** A list template: one output per template element, in order; or the
      first element's error. */
  lemma {:induction false} MapListElementwise(ts: seq<Template>, d: Data, vars: Table, fuel: nat)
    ensures Collects(seq(|ts|, i requires 0 <= i < |ts| => MagicMap(ts[i], d, vars, fuel)),
                     MapList(ts, d, vars, fuel))
    decreases |ts|
  {
    var outs := seq(|ts|, i requires 0 <= i < |ts| => MagicMap(ts[i], d, vars, fuel));
    if ts != [] {
      MapListElementwise(ts[1..], d, vars, fuel);
      var tail := seq(|ts[1..]|, i requires 0 <= i < |ts[1..]| => MagicMap(ts[1..][i], d, vars, fuel));
      assert outs == [MagicMap(ts[0], d, vars, fuel)] + tail;
      CollectsCons(MagicMap(ts[0], d, vars, fuel), tail, MapList(ts[1..], d, vars, fuel));
    }
  }

  /** The keys of a Python dict template are distinct. */
  ghost predicate DistinctKeys(es: seq<Entry>) {
    forall i, j :: 0 <= i < j < |es| ==> es[i].key != es[j].key
  }

  /** `out` is the keyed outcome of `outs` under distinct `keys`: all succeed
      and `out` maps each key to its own value, or `out` is the error of the
      first failure. */
  ghost predicate CollectsKeyed(keys: seq<string>, outs: seq<Result<Data>>, out: Result<map<string, Data>>)
    requires |keys| == |outs|
  {
    && (out.Ok? <==> forall i :: 0 <= i < |outs| ==> outs[i].Ok?)
    && (out.Ok? ==> forall i :: 0 <= i < |outs| ==> keys[i] in out.value && outs[i] == Ok(out.value[keys[i]]))
    && (out.Err? ==> exists i :: 0 <= i < |outs| && outs[i] == Err(out.error)
                                 && forall j :: 0 <= j < i ==> outs[j].Ok?)
  }

  /** Adding a first entry with a fresh key to a keyed outcome. */
  lemma CollectsKeyedCons(k: string, o: Result<Data>, keys: seq<string>, outs: seq<Result<Data>>, rest: Result<map<string, Data>>)
    requires |keys| == |outs| && k !in keys
    requires rest.Ok? ==> rest.value.Keys == set i | 0 <= i < |keys| :: keys[i]
    requires CollectsKeyed(keys, outs, rest)
    ensures CollectsKeyed([k] + keys, [o] + outs,
      if o.Err? then Err(o.error) else if rest.Err? then Err(rest.error) else Ok(map[k := o.value] + rest.value))
  {
    var all := [o] + outs;
    var ks := [k] + keys;
    if o.Ok? && rest.Err? {
      var i :| 0 <= i < |outs| && outs[i] == Err(rest.error) && forall j :: 0 <= j < i ==> outs[j].Ok?;
      assert all[i + 1] == outs[i];
      assert forall j :: 1 <= j < i + 1 ==> all[j] == outs[j - 1];
    } else if o.Ok? {
      var m := map[k := o.value] + rest.value;
      forall i | 0 <= i < |all|
        ensures ks[i] in m && all[i] == Ok(m[ks[i]])
      {
        if i > 0 {
          assert ks[i] == keys[i - 1] && all[i] == outs[i - 1];
          assert keys[i - 1] != k;
        }
      }
    } else {
      assert all[0] == o;
    }
  }

  /** The keys of a dict template, in order. */
  function KeySeq(es: seq<Entry>): (r: seq<string>)
    ensures |r| == |es|
    ensures forall i :: 0 <= i < |es| ==> r[i] == es[i].key
  {
    seq(|es|, i requires 0 <= i < |es| => es[i].key)
  }

  /** Splitting off the first entry of a template with distinct keys: the
      rest has distinct keys, none of them the first key. */
  lemma DistinctKeysTail(es: seq<Entry>)
    requires es != [] && DistinctKeys(es)
    ensures DistinctKeys(es[1..])
    ensures KeySeq(es) == [es[0].key] + KeySeq(es[1..])
    ensures es[0].key !in KeySeq(es[1..])
  {
    var tail := es[1..];
    forall i, j | 0 <= i < j < |tail| ensures tail[i].key != tail[j].key {
      assert tail[i] == es[i + 1] && tail[j] == es[j + 1];
    }
    forall j | 0 <= j < |tail| ensures KeySeq(tail)[j] != es[0].key {
      assert tail[j] == es[j + 1];
    }
  }

  /** The keys `MapEntries` produces are the template's keys, as listed by `KeySeq`. */
  lemma MapEntriesKeySeq(es: seq<Entry>, d: Data, vars: Table, fuel: nat)
    ensures MapEntries(es, d, vars, fuel).Ok? ==>
      MapEntries(es, d, vars, fuel).value.Keys == set i | 0 <= i < |KeySeq(es)| :: KeySeq(es)[i]
  {
    var ks := set i | 0 <= i < |KeySeq(es)| :: KeySeq(es)[i];
    forall k | k in KeysOf(es) ensures k in ks {
      var i :| 0 <= i < |es| && es[i].key == k;
      assert KeySeq(es)[i] == k;
    }
    forall k | k in ks ensures k in KeysOf(es) {
      var i :| 0 <= i < |KeySeq(es)| && KeySeq(es)[i] == k;
      assert es[i].key == k;
    }
  }

  /** One step of `MapEntries`: the first entry, then the rest. */
  lemma MapEntriesStep(es: seq<Entry>, d: Data, vars: Table, fuel: nat)
    requires es != []
    ensures var o := MagicMap(es[0].tmpl, d, vars, fuel); var rest := MapEntries(es[1..], d, vars, fuel);
      MapEntries(es, d, vars, fuel) ==
        if o.Err? then Err(o.error) else if rest.Err? then Err(rest.error) else Ok(map[es[0].key := o.value] + rest.value)
  {
  }

  /** Each entry's template mapped over the data, in entry order. */
  function EntryOutcomes(es: seq<Entry>, d: Data, vars: Table, fuel: nat): (r: seq<Result<Data>>)
    ensures |r| == |es|
    ensures forall i :: 0 <= i < |es| ==> r[i] == MagicMap(es[i].tmpl, d, vars, fuel)
  {
    if es == [] then [] else [MagicMap(es[0].tmpl, d, vars, fuel)] + EntryOutcomes(es[1..], d, vars, fuel)
  }

  /** A dict template: the output has the template's keys, each mapped to its
      own template's result; it fails exactly when some entry fails, with the
      error of the first failing entry. */
  lemma {:induction false} MapEntriesPerKey(es: seq<Entry>, d: Data, vars: Table, fuel: nat)
    requires DistinctKeys(es)
    ensures CollectsKeyed(KeySeq(es), seq(|es|, i requires 0 <= i < |es| => MagicMap(es[i].tmpl, d, vars, fuel)),
                          MapEntries(es, d, vars, fuel))
    decreases |es|
  {
    assert seq(|es|, i requires 0 <= i < |es| => MagicMap(es[i].tmpl, d, vars, fuel)) == EntryOutcomes(es, d, vars, fuel);
    if es != [] {
      var tail := es[1..];
      DistinctKeysTail(es);
      MapEntriesPerKey(tail, d, vars, fuel);
      assert seq(|tail|, i requires 0 <= i < |tail| => MagicMap(tail[i].tmpl, d, vars, fuel)) == EntryOutcomes(tail, d, vars, fuel);
      MapEntriesKeySeq(tail, d, vars, fuel);
      MapEntriesStep(es, d, vars, fuel);
      CollectsKeyedCons(es[0].key, MagicMap(es[0].tmpl, d, vars, fuel), KeySeq(tail), EntryOutcomes(tail, d, vars, fuel),
                        MapEntries(tail, d, vars, fuel));
    }
  }

  /** A `Schema` link on list input: the inner template is mapped over each
      element in order, under the outer table with the local variables laid
      over it; the output lists the results, or the first failing element's
      error is the link's error. */
  lemma SchemaBroadcast(t: Template, local: Table, xs: seq<Data>, vars: Table, fuel: nat)
    ensures var outs := seq(|xs|, i requires 0 <= i < |xs| => MagicMap(t, xs[i], vars + local, fuel));
      match ResolveLink(Schema(t, local), DList(xs), vars, fuel)
      case Next(v) => v.DList? && Collects(outs, Ok(v.items))
      case Fail(e) => Collects(outs, Err(e))
      case Stop(_) => false
  {
    BroadcastElementwise(t, xs, vars + local, fuel);
  }
}

=== FILE: examples.dfy ===
/** The repository's own test scenarios, stated as facts about the model. */
module Examples {
  import opened SourceData
  import opened ListPipeline
  import opened MagicMapper

  function Val(key: string): Link {
    Value(key, None)
  }

  function Rec(k: string, v: Data): Data {
    DMap(map[k := v])
  }

  /** `Schema({"name": Value("name")})`. */
  function NameSchema(): Link {
    Schema(TDict([Entry("name", Leaf(Bare(Val("name"))))]), map[])
  }

  /** A link that completes hands its output to the rest of the chain. */
  lemma RunLinksCons(l: Link, ls: seq<Link>, d: Data, vars: Table, fuel: nat)
    requires ResolveLink(l, d, vars, fuel).Next?
    ensures RunLinks([l] + ls, d, vars, fuel) == RunLinks(ls, ResolveLink(l, d, vars, fuel).value, vars, fuel)
  {
    assert ([l] + ls)[0] == l && ([l] + ls)[1..] == ls;
  }

  /** A one-entry dict template maps to a one-entry mapping. */
  lemma OneEntry(k: string, t: Template, d: Data, vars: Table, fuel: nat)
    requires MagicMap(t, d, vars, fuel).Ok?
    ensures MagicMap(TDict([Entry(k, t)]), d, vars, fuel) == Ok(Rec(k, MagicMap(t, d, vars, fuel).value))
  {
    var es := [Entry(k, t)];
    assert es[0].tmpl == t && es[1..] == [];
    assert MapEntries(es, d, vars, fuel) == Ok(map[k := MagicMap(t, d, vars, fuel).value] + map[]);
    assert map[k := MagicMap(t, d, vars, fuel).value] + map[] == map[k := MagicMap(t, d, vars, fuel).value];
  }

  /** `Schema` over a two-element list maps each element in turn. */
  lemma BroadcastTwo(t: Template, x: Data, y: Data, vars: Table, fuel: nat)
    requires MagicMap(t, x, vars, fuel).Ok? && MagicMap(t, y, vars, fuel).Ok?
    ensures Broadcast(t, [x, y], vars, fuel) == Ok([MagicMap(t, x, vars, fuel).value, MagicMap(t, y, vars, fuel).value])
  {
    assert [x, y][0] == x && [x, y][1..] == [y];
    assert [y][0] == y && [y][1..] == [];
    var vx := MagicMap(t, x, vars, fuel).value;
    var vy := MagicMap(t, y, vars, fuel).value;
    assert Broadcast(t, [], vars, fuel) == Ok([]);
    assert Broadcast(t, [y], vars, fuel) == Ok([vy] + []);
    assert Broadcast(t, [x, y], vars, fuel) == Ok([vx] + ([vy] + []));
    assert [vx] + ([vy] + []) == [vx, vy];
  }

  /** `Schema({"name": Value("name")})` on one `{"name": s}` record. */
  lemma NameOf(s: string, vars: Table, fuel: nat)
    ensures MagicMap(NameSchema().schema, Rec("name", DStr(s)), vars, fuel) == Ok(Rec("name", DStr(s)))
  {
    var leaf := Leaf(Bare(Val("name")));
    assert ResolveLink(Val("name"), Rec("name", DStr(s)), vars, fuel) == Next(DStr(s));
    assert MagicMap(leaf, Rec("name", DStr(s)), vars, fuel) == Ok(DStr(s));
    OneEntry("name", leaf, Rec("name", DStr(s)), vars, fuel);
  }

  /** Schema broadcast with a two-link chain inside:
      `{"names": Schema({"name": Value("person") >> Value("name")})}`. */
  lemma NestedSchemaOverList()
    ensures
      var schema := TDict([Entry("names", Leaf(Bare(
        Schema(TDict([Entry("name", Leaf(Compose(Bare(Val("person")), Bare(Val("name")))))]), map[]))))]);
      var data := DList([Rec("person", Rec("name", DStr("foo1"))), Rec("person", Rec("name", DStr("foo2")))]);
      Map(schema, data, None, 0) == Ok(Rec("names", DList([Rec("name", DStr("foo1")), Rec("name", DStr("foo2"))])))
  {
    var vars: Table := map[];
    var chain := Compose(Bare(Val("person")), Bare(Val("name")));
    assert chain.links == [Val("person")] + [Val("name")];
    var inner := TDict([Entry("name", Leaf(chain))]);
    forall s | s in {"foo1", "foo2"}
      ensures MagicMap(inner, Rec("person", Rec("name", DStr(s))), vars, 0) == Ok(Rec("name", DStr(s)))
    {
      var p := Rec("person", Rec("name", DStr(s)));
      assert ResolveLink(Val("person"), p, vars, 0) == Next(Rec("name", DStr(s)));
      RunLinksCons(Val("person"), [Val("name")], p, vars, 0);
      assert ResolveLink(Val("name"), Rec("name", DStr(s)), vars, 0) == Next(DStr(s));
      RunLinksCons(Val("name"), [], Rec("name", DStr(s)), vars, 0);
      assert [Val("name")] + [] == [Val("name")];
      assert MagicMap(Leaf(chain), p, vars, 0) == Ok(DStr(s));
      OneEntry("name", Leaf(chain), p, vars, 0);
    }
    var p1 := Rec("person", Rec("name", DStr("foo1")));
    var p2 := Rec("person", Rec("name", DStr("foo2")));
    BroadcastTwo(inner, p1, p2, vars, 0);
    var link := Schema(inner, map[]);
    assert vars + map[] == vars;
    assert ResolveLink(link, DList([p1, p2]), vars, 0)
      == Next(DList([Rec("name", DStr("foo1")), Rec("name", DStr("foo2"))]));
    OneEntry("names", Leaf(Bare(link)), DList([p1, p2]), vars, 0);
  }

  /** A variable, a validated list and a schema in one chain:
      `Variable("testvar") >> List("bar", min_length=1) >> Schema({"name": Value("name")})`. */
  lemma VariableListSchemaChain()
    ensures
      var bar := ListSpec("bar", false, None, Some(1), None, None, None, None);
      var chain := Compose(Compose(Bare(Variable("testvar")), Bare(List(bar))), Bare(NameSchema()));
      var data := Rec("foo", Rec("bar", DList([Rec("name", DStr("foo1")), Rec("name", DStr("foo2"))])));
      Map(TDict([Entry("names", Leaf(chain))]), data, Some(map["testvar" := Val("foo")]), 1)
        == Ok(Rec("names", DList([Rec("name", DStr("foo1")), Rec("name", DStr("foo2"))])))
  {
    var bar := ListSpec("bar", false, None, Some(1), None, None, None, None);
    var vars := map["testvar" := Val("foo")];
    var chain := Compose(Compose(Bare(Variable("testvar")), Bare(List(bar))), Bare(NameSchema()));
    assert chain.links == [Variable("testvar")] + ([List(bar)] + [NameSchema()]);
    var records := [Rec("name", DStr("foo1")), Rec("name", DStr("foo2"))];
    var data := Rec("foo", Rec("bar", DList(records)));
    assert ResolveLink(Val("foo"), data, vars, 0) == Next(Rec("bar", DList(records)));
    assert ResolveLink(Variable("testvar"), data, vars, 1) == Next(Rec("bar", DList(records)));
    RunLinksCons(Variable("testvar"), [List(bar)] + [NameSchema()], data, vars, 1);
    assert ResolveList(bar, Rec("bar", DList(records))) == Next(DList(records));
    RunLinksCons(List(bar), [NameSchema()], Rec("bar", DList(records)), vars, 1);
    NameOf("foo1", vars, 1);
    NameOf("foo2", vars, 1);
    BroadcastTwo(NameSchema().schema, records[0], records[1], vars, 1);
    assert vars + map[] == vars;
    assert [records[0], records[1]] == records;
    assert ResolveLink(NameSchema(), DList(records), vars, 1) == Next(DList(records));
    RunLinksCons(NameSchema(), [], DList(records), vars, 1);
    assert MagicMap(Leaf(chain), data, vars, 1) == Ok(DList(records));
    OneEntry("names", Leaf(chain), data, vars, 1);
  }

  /** `List("devices", cast=True) >> Schema(...)` on a single record and on a list. */
  lemma CastThenSchema()
    ensures
      var devices := ListSpec("devices", true, None, None, None, None, None, None);
      var schema := TDict([Entry("devices", Leaf(Compose(Bare(List(devices)), Bare(NameSchema()))))]);
      && Map(schema, Rec("devices", Rec("name", DStr("onlydevice"))), None, 0)
           == Ok(Rec("devices", DList([Rec("name", DStr("onlydevice"))])))
      && Map(schema, Rec("devices", DList([Rec("name", DStr("d1")), Rec("name", DStr("d2"))])), None, 0)
           == Ok(Rec("devices", DList([Rec("name", DStr("d1")), Rec("name", DStr("d2"))])))
  {
    var vars: Table := map[];
    var devices := ListSpec("devices", true, None, None, None, None, None, None);
    var chain := Compose(Bare(List(devices)), Bare(NameSchema()));
    assert chain.links == [List(devices)] + [NameSchema()];
    assert vars + map[] == vars;

    var one := Rec("name", DStr("onlydevice"));
    assert ResolveList(devices, Rec("devices", one)) == Next(DList([one]));
    RunLinksCons(List(devices), [NameSchema()], Rec("devices", one), vars, 0);
    NameOf("onlydevice", vars, 0);
    assert [one][0] == one && [one][1..] == [];
    assert Broadcast(NameSchema().schema, [], vars, 0) == Ok([]);
    assert Broadcast(NameSchema().schema, [one], vars, 0) == Ok([one] + []);
    assert [one] + [] == [one];
    assert ResolveLink(NameSchema(), DList([one]), vars, 0) == Next(DList([one]));
    RunLinksCons(NameSchema(), [], DList([one]), vars, 0);
    OneEntry("devices", Leaf(chain), Rec("devices", one), vars, 0);

    var records := [Rec("name", DStr("d1")), Rec("name", DStr("d2"))];
    assert ResolveList(devices, Rec("devices", DList(records))) == Next(DList(records));
    RunLinksCons(List(devices), [NameSchema()], Rec("devices", DList(records)), vars, 0);
    NameOf("d1", vars, 0);
    NameOf("d2", vars, 0);
    BroadcastTwo(NameSchema().schema, records[0], records[1], vars, 0);
    assert [records[0], records[1]] == records;
    assert ResolveLink(NameSchema(), DList(records), vars, 0) == Next(DList(records));
    RunLinksCons(NameSchema(), [], DList(records), vars, 0);
    OneEntry("devices", Leaf(chain), Rec("devices", DList(records)), vars, 0);
  }

  /** The values of `xs`' `"value"` fields, skipping records without one. */
  function FieldValues(xs: seq<Data>): seq<Data> {
    if xs == [] then []
    else (if xs[0].DMap? && "value" in xs[0].m then [xs[0].m["value"]] else []) + FieldValues(xs[1..])
  }

  /** Agrees with the test's combiner `lambda x, y: x + [v["value"] for v in y["data"]]`
      on the test's data only: where the lambda raises `KeyError` (a device
      without `"data"`, a record without `"value"`), this skips instead. */
  function AppendValues(acc: Data, device: Data): Data {
    if acc.DList? && device.DMap? && "data" in device.m && device.m["data"].DList?
    then DList(acc.items + FieldValues(device.m["data"].items))
    else acc
  }

  /** `List("devices", reduce=(AppendValues, lambda: []))` flattens the devices' values. */
  lemma ReduceCollectsValues()
    ensures
      var devices := ListSpec("devices", false, None, None, None, Some(Reducer(AppendValues, DList([]))), None, None);
      var data := Rec("devices", DList([
        DMap(map["name" := DStr("notinterested"), "data" := DList([Rec("value", DInt(1))])]),
        DMap(map["name" := DStr("notinterested2"), "data" := DList([Rec("value", DInt(2))])])]));
      Map(TDict([Entry("values", Leaf(Bare(List(devices))))]), data, None, 0)
        == Ok(Rec("values", DList([DInt(1), DInt(2)])))
  {
    var vars: Table := map[];
    var devices := ListSpec("devices", false, None, None, None, Some(Reducer(AppendValues, DList([]))), None, None);
    var d1 := DMap(map["name" := DStr("notinterested"), "data" := DList([Rec("value", DInt(1))])]);
    var d2 := DMap(map["name" := DStr("notinterested2"), "data" := DList([Rec("value", DInt(2))])]);
    var data := Rec("devices", DList([d1, d2]));
    assert FieldValues([Rec("value", DInt(1))]) == [DInt(1)];
    assert FieldValues([Rec("value", DInt(2))]) == [DInt(2)];
    assert AppendValues(DList([]), d1) == DList([DInt(1)]);
    assert AppendValues(DList([DInt(1)]), d2) == DList([DInt(1), DInt(2)]);
    assert [d1, d2][1..] == [d2] && [d2][1..] == [];
    assert FoldLeft(AppendValues, DList([]), [d1, d2]) == DList([DInt(1), DInt(2)]);
    assert ResolveList(devices, data) == Next(DList([DInt(1), DInt(2)]));
    OneEntry("values", Leaf(Bare(List(devices))), data, vars, 0);
  }

  /** `List("xs", min_length=2)`: one element fails, two pass. */
  lemma MinLengthTwo()
    ensures
      var xs := ListSpec("xs", false, None, Some(2), None, None, None, None);
      && ResolveList(xs, Rec("xs", DList([DInt(1)]))) == Fail(TooShort("xs"))
      && ResolveList(xs, Rec("xs", DList([DInt(1), DInt(2)]))) == Next(DList([DInt(1), DInt(2)]))
  {
  }
}

=== FILE: fuel_bound.dfy ===
/** The source has no guard against a `Variable` that refers to itself;
    the model bounds `Variable` indirections with fuel instead. These lemmas
    show the bound only ever cuts a resolution short: any outcome other than
    `OutOfFuel` is the outcome with more fuel too. */
module FuelBound {
  import opened SourceData
  import opened MagicMapper

  lemma {:induction false} ResolveLinkFuel(l: Link, d: Data, vars: Table, f: nat, g: nat)
    requires f <= g
    requires ResolveLink(l, d, vars, f) != Fail(OutOfFuel)
    ensures ResolveLink(l, d, vars, g) == ResolveLink(l, d, vars, f)
    decreases f, l, 0, 0
  {
    match l
    case Value(_, _) =>
    case List(_) =>
    case Variable(n) =>
      if n in vars {
        ResolveLinkFuel(vars[n], d, vars, f - 1, g - 1);
      }
    case Schema(t, local) =>
      if d.DList? {
        BroadcastFuel(t, d.items, vars + local, f, g);
      } else {
        MagicMapFuel(t, d, vars + local, f, g);
      }
  }

  lemma {:induction false} RunLinksFuel(ls: seq<Link>, d: Data, vars: Table, f: nat, g: nat)
    requires f <= g
    requires RunLinks(ls, d, vars, f) != Fail(OutOfFuel)
    ensures RunLinks(ls, d, vars, g) == RunLinks(ls, d, vars, f)
    decreases f, ls, 0, 0
  {
    if ls != [] {
      ResolveLinkFuel(ls[0], d, vars, f, g);
      match ResolveLink(ls[0], d, vars, f)
      case Next(v) => RunLinksFuel(ls[1..], v, vars, f, g);
      case Stop(_) =>
      case Fail(_) =>
    }
  }

  /** More fuel never changes a `magic_map` outcome that did not run out. */
  lemma {:induction false} MagicMapFuel(t: Template, d: Data, vars: Table, f: nat, g: nat)
    requires f <= g
    requires MagicMap(t, d, vars, f) != Err(OutOfFuel)
    ensures MagicMap(t, d, vars, g) == MagicMap(t, d, vars, f)
    decreases f, t, 0, 0
  {
    match t
    case TDict(es) => MapEntriesFuel(es, d, vars, f, g);
    case TList(ts) => MapListFuel(ts, d, vars, f, g);
    case Leaf(Chain(ls)) => RunLinksFuel(ls, d, vars, f, g);
    case Leaf(Bare(l)) => ResolveLinkFuel(l, d, vars, f, g);
    case Other(_) =>
  }

  lemma {:induction false} MapEntriesFuel(es: seq<Entry>, d: Data, vars: Table, f: nat, g: nat)
    requires f <= g
    requires MapEntries(es, d, vars, f) != Err(OutOfFuel)
    ensures MapEntries(es, d, vars, g) == MapEntries(es, d, vars, f)
    decreases f, es, 0, 0
  {
    if es != [] {
      MagicMapFuel(es[0].tmpl, d, vars, f, g);
      if MagicMap(es[0].tmpl, d, vars, f).Ok? {
        MapEntriesFuel(es[1..], d, vars, f, g);
      }
    }
  }

  lemma {:induction false} MapListFuel(ts: seq<Template>, d: Data, vars: Table, f: nat, g: nat)
    requires f <= g
    requires MapList(ts, d, vars, f) != Err(OutOfFuel)
    ensures MapList(ts, d, vars, g) == MapList(ts, d, vars, f)
    decreases f, ts, 0, 0
  {
    if ts != [] {
      MagicMapFuel(ts[0], d, vars, f, g);
      if MagicMap(ts[0], d, vars, f).Ok? {
        MapListFuel(ts[1..], d, vars, f, g);
      }
    }
  }

  lemma {:induction false} BroadcastFuel(t: Template, xs: seq<Data>, vars: Table, f: nat, g: nat)
    requires f <= g
    requires Broadcast(t, xs, vars, f) != Err(OutOfFuel)
    ensures Broadcast(t, xs, vars, g) == Broadcast(t, xs, vars, f)
    decreases f, t, 1, |xs|
  {
    if xs != [] {
      MagicMapFuel(t, xs[0], vars, f, g);
      if MagicMap(t, xs[0], vars, f).Ok? {
        BroadcastFuel(t, xs[1..], vars, f, g);
      }
    }
  }

  /** A table entry that names itself never yields a value, however much
      fuel is given: the source recurses until the interpreter gives up. */
  lemma {:induction false} SelfReferenceNeverResolves(n: string, d: Data, vars: Table, fuel: nat)
    requires n in vars && vars[n] == Variable(n)
    ensures ResolveLink(Variable(n), d, vars, fuel) == Fail(OutOfFuel)
    decreases fuel
  {
    if fuel > 0 {
      SelfReferenceNeverResolves(n, d, vars, fuel - 1);
    }
  }
}

=== FILE: list_pipeline.dfy ===
/** The `List` resolver: fetch a key, short-circuit on `None`, then cast,
    validate the length, reduce, filter and index, in that order. */
module ListPipeline {
  import opened SourceData

  /** `reduce=(f, default_factory)`: the combiner and the value the factory
      returns. Both are the caller's own functions, assumed pure. */
  datatype Reducer = Reducer(combine: (Data, Data) -> Data, zero: Data)

  /** The fields of a `List` resolver; `None` stands for a field left unset. */
  datatype ListSpec = ListSpec(
    key: string,
    cast: bool,
    index: Option<int>,
    minLength: Option<int>,
    maxLength: Option<int>,
    reduce: Option<Reducer>,
    filter: Option<Data -> bool>,
    default: Option<Data>)

  /** Step 3: with `cast`, anything that is not already a list is wrapped in a
      one-element list; a list is left alone. */
  function Cast(cast: bool, v: Data): (r: Data)
    ensures cast ==> r.DList?
    ensures v.DList? || !cast ==> r == v
    ensures cast && !v.DList? ==> r == DList([v])
  {
    if cast && !v.DList? then DList([v]) else v
  }

  /** True when `bound` is unset, or `v` has a length and `ok` accepts it. */
  predicate Within(bound: Option<int>, v: Data, ok: (nat, int) -> bool) {
    bound.None? || (Length(v).Some? && ok(Length(v).value, bound.value))
  }

  /** Steps 4 and 5: `max_length` is checked before `min_length`; a bound
      that is set needs a value with a length. */
  function Validate(key: string, minLength: Option<int>, maxLength: Option<int>, v: Data): (r: Result<Data>)
    ensures r.Ok? <==>
      && Within(maxLength, v, (n: nat, b: int) => n <= b)
      && Within(minLength, v, (n: nat, b: int) => n >= b)
    ensures r.Ok? ==> r.value == v
    ensures maxLength.Some? && Length(v).Some? && Length(v).value > maxLength.value
      ==> r == Err(TooLong(key, Length(v).value))
    ensures r == Err(TooShort(key)) <==>
      && Within(maxLength, v, (n: nat, b: int) => n <= b)
      && minLength.Some? && Length(v).Some? && Length(v).value < minLength.value
    ensures r == Err(NotSized) <==> (maxLength.Some? || minLength.Some?) && Length(v).None?
  {
    if maxLength.Some? && Length(v).None? then Err(NotSized)
    else if maxLength.Some? && Length(v).value > maxLength.value then Err(TooLong(key, Length(v).value))
    else if minLength.Some? && Length(v).None? then Err(NotSized)
    else if minLength.Some? && Length(v).value < minLength.value then Err(TooShort(key))
    else Ok(v)
  }

  /** `functools.reduce(f, xs, acc)`: combine from the left, starting at `acc`. */
  function FoldLeft(f: (Data, Data) -> Data, acc: Data, xs: seq<Data>): (r: Data)
    ensures xs == [] ==> r == acc
    ensures |xs| == 1 ==> r == f(acc, xs[0])
    decreases |xs|
  {
    if xs == [] then acc else FoldLeft(f, f(acc, xs[0]), xs[1..])
  }

  /** The last element is combined last: the fold is a left fold. */
  lemma {:induction false} FoldLeftSnoc(f: (Data, Data) -> Data, acc: Data, xs: seq<Data>, x: Data)
    ensures FoldLeft(f, acc, xs + [x]) == f(FoldLeft(f, acc, xs), x)
    decreases |xs|
  {
    if xs == [] {
      assert xs + [x] == [x];
    } else {
      assert (xs + [x])[1..] == xs[1..] + [x];
      FoldLeftSnoc(f, f(acc, xs[0]), xs[1..], x);
    }
  }

  /** Folding a concatenation folds the second part from where the first left off. */
  lemma {:induction false} FoldLeftAppend(f: (Data, Data) -> Data, acc: Data, xs: seq<Data>, ys: seq<Data>)
    ensures FoldLeft(f, acc, xs + ys) == FoldLeft(f, FoldLeft(f, acc, xs), ys)
    decreases |xs|
  {
    if xs == [] {
      assert xs + ys == ys;
    } else {
      assert (xs + ys)[1..] == xs[1..] + ys;
      FoldLeftAppend(f, f(acc, xs[0]), xs[1..], ys);
    }
  }

  /** `list(filter(p, xs))`: the elements satisfying `p`, in their order. */
  function Filter(p: Data -> bool, xs: seq<Data>): (r: seq<Data>)
    ensures |r| <= |xs|
    ensures forall x :: x in r <==> x in xs && p(x)
    decreases |xs|
  {
    if xs == [] then []
    else (if p(xs[0]) then [xs[0]] else []) + Filter(p, xs[1..])
  }

  /** Filtering distributes over concatenation, so it keeps relative order. */
  lemma {:induction false} FilterAppend(p: Data -> bool, xs: seq<Data>, ys: seq<Data>)
    ensures Filter(p, xs + ys) == Filter(p, xs) + Filter(p, ys)
    decreases |xs|
  {
    if xs == [] {
      assert xs + ys == ys;
    } else {
      assert (xs + ys)[1..] == xs[1..] + ys;
      FilterAppend(p, xs[1..], ys);
    }
  }

  /** A sequence whose every element satisfies `p` passes the filter unchanged. */
  lemma {:induction false} FilterKeepsAll(p: Data -> bool, xs: seq<Data>)
    requires forall i :: 0 <= i < |xs| ==> p(xs[i])
    ensures Filter(p, xs) == xs
    decreases |xs|
  {
    if xs != [] {
      FilterKeepsAll(p, xs[1..]);
    }
  }

  /** Filtering twice is filtering once. */
  lemma {:induction false} FilterIdempotent(p: Data -> bool, xs: seq<Data>)
    ensures Filter(p, Filter(p, xs)) == Filter(p, xs)
  {
    var r := Filter(p, xs);
    forall i | 0 <= i < |r|
      ensures p(r[i])
    {
      assert r[i] in r;
    }
    FilterKeepsAll(p, r);
  }

  /** Step 6: reduce whatever the previous steps produced, if it is iterable. */
  function Reduce(red: Reducer, v: Data): (r: Result<Data>)
    ensures v.DList? ==> r == Ok(FoldLeft(red.combine, red.zero, v.items))
    ensures v.DStr? ==> r == Ok(FoldLeft(red.combine, red.zero, Chars(v.s)))
    ensures r.Err? <==> Iterate(v).Err?
    ensures r.Err? ==> r.error == Iterate(v).error
  {
    var xs :- Iterate(v);
    Ok(FoldLeft(red.combine, red.zero, xs))
  }

  /** Step 7: filter whatever the previous steps produced; the result is a list. */
  function FilterData(p: Data -> bool, v: Data): (r: Result<Data>)
    ensures v.DList? ==> r == Ok(DList(Filter(p, v.items)))
    ensures v.DStr? ==> r == Ok(DList(Filter(p, Chars(v.s))))
    ensures r.Ok? ==> r.value.DList?
    ensures r.Err? <==> Iterate(v).Err?
    ensures r.Err? ==> r.error == Iterate(v).error
  {
    var xs :- Iterate(v);
    Ok(DList(Filter(p, xs)))
  }

  /** Steps 3 to 8 on a fetched value that is not `None`. */
  function Pipeline(spec: ListSpec, v: Data): Result<Data> {
    var checked :- Validate(spec.key, spec.minLength, spec.maxLength, Cast(spec.cast, v));
    var reduced :- if spec.reduce.Some? then Reduce(spec.reduce.value, checked) else Ok(checked);
    var filtered :- if spec.filter.Some? then FilterData(spec.filter.value, reduced) else Ok(reduced);
    if spec.index.Some? then Subscript(filtered, spec.index.value) else Ok(filtered)
  }

  /** `List.resolve_link`: fetch the key (or the default, or the `empty`
      sentinel), stop the chain on `None`, otherwise run the pipeline. */
  function ResolveList(spec: ListSpec, d: Data): (r: Step)
    ensures Lookup(d, spec.key, spec.default) == Ok(DNull) <==> r == Stop(DNull)
    ensures r.Stop? ==> r.final == DNull
    ensures !d.DMap? ==> r == Fail(NotAMapping)
    ensures Lookup(d, spec.key, spec.default).Ok? && Lookup(d, spec.key, spec.default).value != DNull
      && Validate(spec.key, spec.minLength, spec.maxLength, Cast(spec.cast, Lookup(d, spec.key, spec.default).value)).Err?
      ==> r == Fail(Validate(spec.key, spec.minLength, spec.maxLength, Cast(spec.cast, Lookup(d, spec.key, spec.default).value)).error)
  {
    match Lookup(d, spec.key, spec.default)
    case Err(e) => Fail(e)
    case Ok(v) =>
      if v == DNull then Stop(DNull)
      else
        match Pipeline(spec, v)
        case Ok(w) => Next(w)
        case Err(e) => Fail(e)
  }

  /** With no reduce, filter or index, a fetched value that is not `None`
      and passes validation is returned as cast: unchanged, or wrapped in a
      one-element list under `cast`. */
  lemma BaseStage(spec: ListSpec, d: Data)
    requires spec.reduce.None? && spec.filter.None? && spec.index.None?
    requires Lookup(d, spec.key, spec.default).Ok? && Lookup(d, spec.key, spec.default).value != DNull
    requires Validate(spec.key, spec.minLength, spec.maxLength, Cast(spec.cast, Lookup(d, spec.key, spec.default).value)).Ok?
    ensures ResolveList(spec, d) == Next(Cast(spec.cast, Lookup(d, spec.key, spec.default).value))
  {
  }

  /** The length checks see the value after the cast: with `cast` and
      `max_length = 1`, a single non-list value passes and comes back wrapped. */
  lemma CastBeforeLengthChecks(spec: ListSpec, d: Data)
    requires d.DMap? && spec.key in d.m
    requires d.m[spec.key] != DNull && !d.m[spec.key].DList?
    requires spec.cast && spec.maxLength == Some(1)
    requires spec.minLength.None? || spec.minLength.value <= 1
    requires spec.reduce.None? && spec.filter.None? && spec.index.None?
    ensures ResolveList(spec, d) == Next(DList([d.m[spec.key]]))
  {
  }

  /** A fetched list longer than `max_length`, or shorter than `min_length`,
      fails validation naming the key; a length within both bounds passes and,
      with nothing else configured, comes back unchanged. */
  lemma LengthChecksOnLists(spec: ListSpec, d: Data)
    requires d.DMap? && spec.key in d.m && d.m[spec.key].DList?
    requires spec.reduce.None? && spec.filter.None? && spec.index.None?
    ensures var n := |d.m[spec.key].items|;
      && (spec.maxLength.Some? && n > spec.maxLength.value
          ==> ResolveList(spec, d) == Fail(TooLong(spec.key, n)))
      && ((spec.maxLength.None? || n <= spec.maxLength.value) && spec.minLength.Some? && n < spec.minLength.value
          ==> ResolveList(spec, d) == Fail(TooShort(spec.key)))
      && ((spec.maxLength.None? || n <= spec.maxLength.value) && (spec.minLength.None? || n >= spec.minLength.value)
          ==> ResolveList(spec, d) == Next(d.m[spec.key]))
  {
  }

  /** After validation the reduce runs first on the cast value, the filter
      sees its output, and the index picks from what the filter kept. */
  lemma ReduceThenFilterThenIndex(spec: ListSpec, d: Data, red: Reducer, p: Data -> bool, i: int)
    requires Lookup(d, spec.key, spec.default).Ok? && Lookup(d, spec.key, spec.default).value != DNull
    requires var v := Cast(spec.cast, Lookup(d, spec.key, spec.default).value);
      v.DList? && Validate(spec.key, spec.minLength, spec.maxLength, v).Ok?
    requires spec.reduce == Some(red) && spec.filter == Some(p) && spec.index == Some(i)
    requires FoldLeft(red.combine, red.zero, Cast(spec.cast, Lookup(d, spec.key, spec.default).value).items).DList?
    ensures var folded := FoldLeft(red.combine, red.zero, Cast(spec.cast, Lookup(d, spec.key, spec.default).value).items);
      var kept := Filter(p, folded.items);
      ResolveList(spec, d) == (if -|kept| <= i < |kept| then Next(PyIndex(kept, i).value) else Fail(IndexOutOfRange(i)))
  {
  }

  /** A validation failure comes before the reduce, the filter and the index,
      whatever they are: a list that is too long with an index out of range
      fails as too long. */
  lemma ValidationFirst(spec: ListSpec, xs: seq<Data>, n: int, i: int)
    requires spec.maxLength == Some(n) && 0 <= n < |xs|
    requires spec.index == Some(i) && !(-|xs| <= i < |xs|)
    ensures ResolveList(spec, DMap(map[spec.key := DList(xs)])) == Fail(TooLong(spec.key, |xs|))
  {
  }

  /** Unlike `Value`, a `List` with no default does not raise on a missing
      key: the `empty` sentinel itself becomes the result, or the single
      element of the result under `cast`. */
  lemma MissingKeyYieldsSentinel(spec: ListSpec, d: Data)
    requires d.DMap? && spec.key !in d.m && spec.default.None?
    requires spec.minLength.None? && spec.maxLength.None?
    requires spec.reduce.None? && spec.filter.None? && spec.index.None?
    ensures ResolveList(spec, d) == Next(if spec.cast then DList([DEmpty]) else DEmpty)
  {
  }
}

=== FILE: magic_mapper.dfy ===
/** The resolver engine: the four link kinds, chains built with `>>`, chain
    resolution with the `StopChain` early return, and `magic_map`, the walk
    of a nested template over source data. */
module MagicMapper {
  import opened SourceData
  import opened ListPipeline

  /** A chain link: one of the four resolver kinds. */
  datatype Link =
      /** `Value(key, default)`; `None` is "no default" (the `empty` sentinel). */
    | Value(key: string, default: Option<Data>)
    | List(spec: ListSpec)
    | Variable(name: string)
      /** `Schema(schema, variables)`; unset local variables are the empty table. */
    | Schema(schema: Template, variables: Table)

  /** The variable table: names to single links (a `Chain` has no `resolve_link`). */
  type Table = map<string, Link>

  /** What `>>` accepts and builds: a bare link or a `Chain` of links. */
  datatype Chainable = Bare(link: Link) | Chain(links: seq<Link>)

  /** One `key: template` pair of a dict template. */
  datatype Entry = Entry(key: string, tmpl: Template)

  /** A schema template. Dict templates keep Python's insertion order, which
      decides which failing entry's error is raised. `Other` is any leaf that
      is neither a dict, a list, a `Chain` nor a link. */
  datatype Template =
    | TDict(entries: seq<Entry>)
    | TList(elems: seq<Template>)
    | Leaf(resolver: Chainable)
    | Other(typeName: string)

  /** The links an operand of `>>` contributes: its chain, or itself alone. */
  function LinksOf(c: Chainable): (r: seq<Link>)
    ensures c.Bare? ==> r == [c.link]
    ensures c.Chain? ==> r == c.links
  {
    match c
    case Bare(l) => [l]
    case Chain(ls) => ls
  }

  /** `a >> b`: a fresh chain of a's links followed by b's links. */
  function Compose(a: Chainable, b: Chainable): (r: Chainable)
    ensures r.Chain?
    ensures |r.links| == |LinksOf(a)| + |LinksOf(b)|
    ensures r.links[..|LinksOf(a)|] == LinksOf(a)
    ensures r.links[|LinksOf(a)|..] == LinksOf(b)
  {
    Chain(LinksOf(a) + LinksOf(b))
  }

  /** `ChainLink.to_chain`: the one-link chain. */
  function ToChain(l: Link): (r: Chainable)
    ensures r.Chain? && LinksOf(r) == LinksOf(Bare(l))
  {
    Chain([l])
  }

  /** `Value.resolve_link`: `None` stops the chain, the `empty` sentinel is a
      `KeyError` naming the key and the mapping's items, anything else is the result. */
  function ResolveValue(key: string, default: Option<Data>, d: Data): (r: Step)
    ensures d.DMap? && key in d.m && d.m[key] !in {DNull, DEmpty} ==> r == Next(d.m[key])
    ensures d.DMap? && key !in d.m && default.Some? && default.value !in {DNull, DEmpty}
      ==> r == Next(default.value)
    ensures d.DMap? && Lookup(d, key, default) == Ok(DNull) <==> r == Stop(DNull)
    ensures d.DMap? && key !in d.m && default.GetOr(DEmpty) == DEmpty ==> r == Fail(MissingKey(key, d.m))
    ensures d.DMap? && key in d.m && d.m[key] == DEmpty ==> r == Fail(MissingKey(key, d.m))
    ensures !d.DMap? ==> r == Fail(NotAMapping)
    ensures r.Next? ==> r.value != DEmpty && r.value != DNull
  {
    match Lookup(d, key, default)
    case Err(e) => Fail(e)
    case Ok(v) =>
      if v == DNull then Stop(DNull)
      else if v == DEmpty then Fail(MissingKey(key, d.m))
      else Next(v)
  }

  /** A chain's final outcome: a `StopChain` value is returned as the result. */
  function Finish(s: Step): (r: Result<Data>)
    ensures s.Next? ==> r == Ok(s.value)
    ensures s.Stop? ==> r == Ok(s.final)
    ensures s.Fail? ==> r == Err(s.error)
  {
    match s
    case Next(v) => Ok(v)
    case Stop(v) => Ok(v)
    case Fail(e) => Err(e)
  }

  /** A result handed on as a link's step; it never stops the chain. */
  function AsStep(r: Result<Data>): (s: Step)
    ensures !s.Stop?
    ensures Finish(s) == r
  {
    match r
    case Ok(v) => Next(v)
    case Err(e) => Fail(e)
  }

  /** `resolve_link` of any link. `Variable` indirections each use one unit of
      `fuel`; running out is the `OutOfFuel` error. */
  function ResolveLink(l: Link, d: Data, vars: Table, fuel: nat): (r: Step)
    ensures r.Stop? ==> r.final == DNull
    ensures l.Schema? ==> !r.Stop?
    ensures l.Variable? && l.name !in vars ==> r == Fail(MissingVariable(l.name))
    decreases fuel, l, 0, 0
  {
    match l
    case Value(k, def) => ResolveValue(k, def, d)
    case List(spec) => ResolveList(spec, d)
    case Variable(n) =>
      if n !in vars then Fail(MissingVariable(n))
      else if fuel == 0 then Fail(OutOfFuel)
      else ResolveLink(vars[n], d, vars, fuel - 1)
    case Schema(t, local) =>
      var merged := vars + local;
      if d.DList? then
        match Broadcast(t, d.items, merged, fuel)
        case Ok(rs) => Next(DList(rs))
        case Err(e) => Fail(e)
      else AsStep(MagicMap(t, d, merged, fuel))
  }

  /** `Chain.resolve` before a `StopChain` is caught: each link's output is
      the next link's input; a stop or an error ends the run. */
  function RunLinks(ls: seq<Link>, d: Data, vars: Table, fuel: nat): (r: Step)
    ensures ls == [] ==> r == Next(d)
    ensures r.Stop? ==> r.final == DNull
    ensures ls != [] && !ResolveLink(ls[0], d, vars, fuel).Next? ==> r == ResolveLink(ls[0], d, vars, fuel)
    decreases fuel, ls, 0, 0
  {
    if ls == [] then Next(d)
    else
      match ResolveLink(ls[0], d, vars, fuel)
      case Next(v) => RunLinks(ls[1..], v, vars, fuel)
      case Stop(v) => Stop(v)
      case Fail(e) => Fail(e)
  }

  /** `Chain.resolve`: run the links; a `StopChain` value is the result. */
  function ResolveChain(ls: seq<Link>, d: Data, vars: Table, fuel: nat): (r: Result<Data>)
    ensures ls == [] ==> r == Ok(d)
    ensures ls != [] && ResolveLink(ls[0], d, vars, fuel).Stop? ==> r == Ok(DNull)
    ensures ls != [] && ResolveLink(ls[0], d, vars, fuel).Fail? ==> r == Err(ResolveLink(ls[0], d, vars, fuel).error)
    ensures |ls| == 1 ==> r == Finish(ResolveLink(ls[0], d, vars, fuel))
    decreases fuel, ls, 1, 0
  {
    Finish(RunLinks(ls, d, vars, fuel))
  }

  /** `magic_map(schema, source_data, variables)`. */
  function MagicMap(t: Template, d: Data, vars: Table, fuel: nat): (r: Result<Data>)
    ensures t.TDict? && r.Ok? ==> r.value.DMap? && r.value.m.Keys == KeysOf(t.entries)
    ensures t.TList? && r.Ok? ==> r.value.DList? && |r.value.items| == |t.elems|
    ensures t.Other? ==> r == Err(UnknownSchemaType(t.typeName))
    decreases fuel, t, 0, 0
  {
    match t
    case TDict(es) =>
      var m :- MapEntries(es, d, vars, fuel);
      Ok(DMap(m))
    case TList(ts) =>
      var rs :- MapList(ts, d, vars, fuel);
      Ok(DList(rs))
    case Leaf(Chain(ls)) => ResolveChain(ls, d, vars, fuel)
    case Leaf(Bare(l)) => Finish(ResolveLink(l, d, vars, fuel))
    case Other(name) => Err(UnknownSchemaType(name))
  }

  /** The keys of a dict template. */
  function KeysOf(es: seq<Entry>): set<string> {
    set i | 0 <= i < |es| :: es[i].key
  }

  /** The dict comprehension of `magic_map`: entries in order, the first
      error aborts; a later entry for a repeated key wins. */
  function MapEntries(es: seq<Entry>, d: Data, vars: Table, fuel: nat): (r: Result<map<string, Data>>)
    ensures r.Ok? ==> r.value.Keys == KeysOf(es)
    decreases fuel, es, 0, 0
  {
    if es == [] then Ok(map[])
    else
      var v :- MagicMap(es[0].tmpl, d, vars, fuel);
      var rest :- MapEntries(es[1..], d, vars, fuel);
      assert KeysOf(es) == {es[0].key} + KeysOf(es[1..]) by {
        forall k | k in KeysOf(es) ensures k in {es[0].key} + KeysOf(es[1..]) {
          var i :| 0 <= i < |es| && es[i].key == k;
          if i > 0 { assert es[1..][i - 1].key == k; }
        }
        forall k | k in KeysOf(es[1..]) ensures k in KeysOf(es) {
          var i :| 0 <= i < |es[1..]| && es[1..][i].key == k;
          assert es[i + 1].key == k;
        }
      }
      Ok(map[es[0].key := v] + rest)
  }

  /** The list comprehension of `magic_map`: elements in order, the first
      error aborts. */
  function MapList(ts: seq<Template>, d: Data, vars: Table, fuel: nat): (r: Result<seq<Data>>)
    ensures r.Ok? ==> |r.value| == |ts|
    decreases fuel, ts, 0, 0
  {
    if ts == [] then Ok([])
    else
      var v :- MagicMap(ts[0], d, vars, fuel);
      var rest :- MapList(ts[1..], d, vars, fuel);
      Ok([v] + rest)
  }

  /** `Schema` on list input: the inner template applied to each element in
      order, the first error aborting the whole list. */
  function Broadcast(t: Template, xs: seq<Data>, vars: Table, fuel: nat): (r: Result<seq<Data>>)
    ensures r.Ok? ==> |r.value| == |xs|
    decreases fuel, t, 1, |xs|
  {
    if xs == [] then Ok([])
    else
      var v :- MagicMap(t, xs[0], vars, fuel);
      var rest :- Broadcast(t, xs[1..], vars, fuel);
      Ok([v] + rest)
  }

  /** The entry point: a missing (or empty) variable table is the empty table. */
  function Map(t: Template, d: Data, variables: Option<Table>, fuel: nat): (r: Result<Data>)
    ensures variables.None? || variables == Some(map[]) ==> r == MagicMap(t, d, map[], fuel)
    ensures variables.Some? ==> r == MagicMap(t, d, variables.value, fuel)
  {
    MagicMap(t, d, variables.GetOr(map[]), fuel)
  }
}

=== FILE: source_data.dfy ===
/** The values the mapper reads and produces, the errors it can raise, and the
    few Python operations on those values that the resolvers rely on
    (`dict.get`, `len`, iteration, subscription). */
module SourceData {

  /** Conventional Some/None, used for the resolvers' optional settings. */
  datatype Option<+T> = None | Some(value: T) {

    /** The wrapped value, or `other` when there is none. */
    function GetOr(other: T): T {
      match this
      case Some(v) => v
      case None => other
    }
  }

  /** Already-deserialized source data: string-keyed mappings, lists and
      scalars. `DEmpty` is the `empty` sentinel class itself; it is never
      part of the caller's input, but a `List` resolver with no default can
      hand it on as a value when its key is missing. */
  datatype Data =
    | DNull
    | DBool(b: bool)
    | DInt(i: int)
    | DStr(s: string)
    | DMap(m: map<string, Data>)
    | DList(items: seq<Data>)
    | DEmpty

  /** The error kinds a resolution can raise. */
  datatype Error =
      /** `KeyError` from `Value`: the key, and the mapping's items. */
    | MissingKey(key: string, available: map<string, Data>)
      /** `KeyError` from `Variable`: the name missing from the table. */
    | MissingVariable(name: string)
      /** `ListValidationError` for `max_length`, with the actual length. */
    | TooLong(key: string, length: nat)
      /** `ListValidationError` for `min_length`. */
    | TooShort(key: string)
      /** `AttributeError`: `.get` on something that is not a mapping. */
    | NotAMapping
      /** `TypeError` from `len` on a value without a length. */
    | NotSized
      /** `TypeError` from `reduce`/`filter` on a value that is not iterable. */
    | NotIterable
      /** `TypeError` from indexing a value that is not subscriptable. */
    | NotSubscriptable
      /** `IndexError` from indexing a list or string out of range. */
    | IndexOutOfRange(index: int)
      /** `KeyError` from indexing a string-keyed mapping with an integer. */
    | MissingIndexKey(index: int)
      /** `ValueError` from `magic_map` on a leaf of unknown type. */
    | UnknownSchemaType(typeName: string)
      /** Iterating a mapping, whose key order this model does not keep. */
    | UnorderedIteration
      /** The bound on `Variable` indirections was used up. */
    | OutOfFuel

  /** Outcome of a chain or of `magic_map`: a value or a raised error. */
  datatype Result<+T> = Ok(value: T) | Err(error: Error) {

    predicate IsFailure() {
      Err?
    }

    function PropagateFailure<U>(): Result<U>
      requires Err?
    {
      Err(error)
    }

    function Extract(): T
      requires Ok?
    {
      value
    }
  }

  /** Outcome of one chain link: the value passed to the next link, a
      `StopChain` signal carrying the chain's final value, or an error. */
  datatype Step = Next(value: Data) | Stop(final: Data) | Fail(error: Error)

  /** `o.get(key, default)`, where a missing default is the `empty` sentinel. */
  function Lookup(o: Data, key: string, default: Option<Data>): (r: Result<Data>)
    ensures r.Err? <==> !o.DMap?
    ensures r.Err? ==> r.error == NotAMapping
    ensures o.DMap? && key in o.m ==> r == Ok(o.m[key])
    ensures o.DMap? && key !in o.m && default.Some? ==> r == Ok(default.value)
    ensures o.DMap? && key !in o.m && default.None? ==> r == Ok(DEmpty)
  {
    match o
    case DMap(m) => Ok(if key in m then m[key] else default.GetOr(DEmpty))
    case _ => Err(NotAMapping)
  }

  /** Python's `len`: lists, strings and mappings have one, nothing else does. */
  function Length(v: Data): (r: Option<nat>)
    ensures v.DList? ==> r == Some(|v.items|)
    ensures v.DStr? ==> r == Some(|v.s|)
    ensures v.DMap? ==> r == Some(|v.m|)
    ensures r.None? <==> !(v.DList? || v.DStr? || v.DMap?)
  {
    match v
    case DList(xs) => Some(|xs|)
    case DStr(s) => Some(|s|)
    case DMap(m) => Some(|m|)
    case _ => None
  }

  /** The one-character strings of `s`, in order: what iterating a string yields. */
  function Chars(s: string): (r: seq<Data>)
    ensures |r| == |s|
    ensures forall i :: 0 <= i < |s| ==> r[i] == DStr([s[i]])
  {
    seq(|s|, i requires 0 <= i < |s| => DStr([s[i]]))
  }

  /** The elements Python iteration visits, in order. */
  function Iterate(v: Data): (r: Result<seq<Data>>)
    ensures v.DList? ==> r == Ok(v.items)
    ensures v.DStr? ==> r == Ok(Chars(v.s))
    ensures v.DMap? ==> r == Err(UnorderedIteration)
    ensures !(v.DList? || v.DStr? || v.DMap?) ==> r == Err(NotIterable)
    ensures r.Ok? <==> v.DList? || v.DStr?
  {
    match v
    case DList(xs) => Ok(xs)
    case DStr(s) => Ok(Chars(s))
    case DMap(_) => Err(UnorderedIteration)
    case _ => Err(NotIterable)
  }

  /** Python sequence indexing: a negative index counts from the end. */
  function PyIndex<T>(xs: seq<T>, i: int): (r: Option<T>)
    ensures r.Some? <==> -|xs| <= i < |xs|
    ensures 0 <= i < |xs| ==> r == Some(xs[i])
    ensures -|xs| <= i < 0 ==> r == Some(xs[|xs| + i])
  {
    if 0 <= i < |xs| then Some(xs[i])
    else if -|xs| <= i < 0 then Some(xs[|xs| + i])
    else None
  }

  /** Python's `v[i]` for an integer `i`. */
  function Subscript(v: Data, i: int): (r: Result<Data>)
    ensures v.DList? && PyIndex(v.items, i).Some? ==> r == Ok(PyIndex(v.items, i).value)
    ensures v.DList? && PyIndex(v.items, i).None? ==> r == Err(IndexOutOfRange(i))
    ensures v.DStr? && PyIndex(v.s, i).Some? ==> r == Ok(DStr([PyIndex(v.s, i).value]))
    ensures v.DStr? && PyIndex(v.s, i).None? ==> r == Err(IndexOutOfRange(i))
    ensures v.DMap? ==> r == Err(MissingIndexKey(i))
    ensures !(v.DList? || v.DStr? || v.DMap?) ==> r == Err(NotSubscriptable)
  {
    match v
    case DList(xs) =>
      (match PyIndex(xs, i)
       case Some(x) => Ok(x)
       case None => Err(IndexOutOfRange(i)))
    case DStr(s) =>
      (match PyIndex(s, i)
       case Some(c) => Ok(DStr([c]))
       case None => Err(IndexOutOfRange(i)))
    case DMap(_) => Err(MissingIndexKey(i))
    case _ => Err(NotSubscriptable)
  }
}
